=== FILE: README.md ===
# tickle business rules in Dafny

A model of the business rules of *tickle*, the Django backend of an event
ticketing and merchandise shop. People fill shopping carts with holdings
(one holding = one product line, with a quantity), carts become purchases,
and prices come from a base price adjusted by discounts, person modifiers
and variation choices. The repository holds two unrelated schema
generations of the same domain; they are modelled as separate modules.

- `wrappers.dfy` — `Option`, `Result` and `Outcome`, used for nullable
  columns, operations that raise, and validation steps.
- `legacy_products.dfy`, module `LegacyProducts` — the older generation
  (`tickle/models/products.py`): public product names, holding validation
  (`clean`, `save`), the `transferable` override, discounted prices, line
  totals, the queryset sums and `ShoppingCart.purchase`, the all-or-nothing
  step that moves every holding of a cart into one new purchase and freezes
  the cart owner's eligible discounts onto each holding.
- `people.dfy`, module `People` — the person identity logic
  (`tickle/people/models.py`): the Swedish national identity number
  `YYMMDD-NNNN` (Skatteverket SKV 704; a coordination number per SKV 707
  adds 60 to the day), the blank-code normalisation the code intends but
  never runs, the identifier chosen for the KOBRA student lookup, the merge
  of a lookup answer and the exceptions that escape it (as intended, and as
  written, where unimported names make every lookup raise), names, and user
  creation as written.
- `products.dfy`, module `Products` — the newer generation
  (`tickle/products/models.py`): carts stamped as purchased, holding prices
  (base price + person modifier delta + variation-choice deltas), the
  quantity rule and the "limit reached" check. Most of these cannot run as
  written; each is modelled as written and as evidently intended (see the
  findings at the end).

Money is `Decimal` with two places in the source and an `int` number of
hundredths (`Cents`) here, so every stored amount and every sum of stored
amounts is exact (computed discount deltas are the exception; see "## Left
out"). Python truthiness is written out: a nullable text column counts as present only when it is
neither NULL nor blank (`People.Present`), and a limit of 0 is falsy.
Behaviour the source delegates to code that is not part of this model is
a parameter of the functions that use it: `Discount.delta(price)` and
`product_discounts.eligible(person)` (`LegacyProducts.DiscountRules`),
`product_modifiers.met(person).real_delta()` (`Products.ModifierDelta`),
`KobraClient().get_student` (the `client` parameter), the identity-number
parser `SEPersonalIdentityNumberField` behind the `pid` setter (`parsePid`,
`None` where it raises), the model validation `full_clean` run by
`Person.save` (`fullClean`) and `now()` (a `Time` argument).

Three loops of the source are modelled twice, as a recursive reference
function and as a method that runs the loop, and the method is proved to
compute the function (`ComputeDiscountedPrice`, `ComputeDiscountedTotal`,
`ComputeVariationDelta`). The loops of `ShoppingCart.purchase` and
`PersonQuerySet.fill_kobra_data` are modelled only by recursive functions
(`LegacyProducts.MoveCartHoldings`, `People.FillAllKobraData`).

## Model

| member | source | states |
|---|---|---|
| `LegacyProducts.PublicName` | tickle/models/products.py:103-105 | The public name when it is neither NULL nor blank, otherwise the internal name; blank only if the internal name is blank. |
| `LegacyProducts.Clean` | tickle/models/products.py:175-177 | A holding of a non-quantitative product passes iff its quantity is 1; any quantity of a quantitative product passes; the only rejection is the quantity error. |
| `LegacyProducts.Save` | tickle/models/products.py:179-187 | Saving succeeds iff exactly one of cart and purchase is set, leaving the row as it is; both set and neither set are rejected with their own errors. |
| `LegacyProducts.Transferable` | tickle/models/products.py:219-222 | The override when it is set, the product's setting when it is NULL. |
| `LegacyProducts.SetTransferable` | tickle/models/products.py:224-227 | Reading after setting gives the value set (the product setting after clearing it), and no other field changes. |
| `LegacyProducts.DiscountedPrice` | tickle/models/products.py:201-213 | Purchased holdings apply their frozen holding discounts, unpurchased ones the product discounts the holder is eligible for; with no discount the price is the product price. |
| `LegacyProducts.ComputeDiscountedPrice` | tickle/models/products.py:202-213 | The loop that subtracts each discount's delta of the running price computes the discounted price. |
| `LegacyProducts.ApplyDiscountsAppend` | tickle/models/products.py:206-211 | Applying two runs of discounts in turn equals applying their concatenation: the subtraction is sequential. |
| `LegacyProducts.ApplyDiscountsSnoc` | tickle/models/products.py:207 | One more discount subtracts its delta taken of the price reached so far. |
| `LegacyProducts.DiscountsNeverRaisePrice` | tickle/models/products.py:201-213 | If no discount delta is negative, the discounted price is at most the product price. |
| `LegacyProducts.PurchasedPriceIgnoresEligibility` | tickle/models/products.py:204-207 | A purchased holding's price does not depend on which product discounts are currently eligible. |
| `LegacyProducts.LineTotals` | tickle/models/products.py:215-231 | Discounted total equals total (price times quantity) when no discount applies, and is at most it when no delta is negative. |
| `LegacyProducts.Total` | tickle/models/products.py:229-231 | No units cost 0, one unit costs the product price, and a non-negative price gives a non-negative line total. |
| `LegacyProducts.DiscountedTotal` | tickle/models/products.py:215-217 | No units cost 0, one unit costs the discounted price, and a non-negative discounted price gives a non-negative line total. |
| `LegacyProducts.Quantity` | tickle/models/products.py:129-130 | The queryset quantity is 0 for no rows and at least each row's quantity. |
| `LegacyProducts.QuantityAppend` | tickle/models/products.py:129-130 | The quantity of two concatenated querysets is the sum of their quantities. |
| `LegacyProducts.QuantityCountsSingleHoldings` | tickle/models/products.py:129-130 | For valid holdings of non-quantitative products the summed quantity is the number of holdings. |
| `LegacyProducts.SumDiscountedTotals` | tickle/models/products.py:142-146 | The discounted total of no rows is 0.00, and it is non-negative when every row's discounted total is. |
| `LegacyProducts.ComputeDiscountedTotal` | tickle/models/products.py:142-146 | The loop from 0.00 adding each holding's discounted total computes the summed discounted totals. |
| `LegacyProducts.SumDiscountedTotalsAppend` | tickle/models/products.py:142-146 | The discounted total of two concatenated querysets is the sum of theirs. |
| `LegacyProducts.DiscountedTotalWithoutDiscounts` | tickle/models/products.py:142-146 | With no applicable discounts the queryset's discounted total equals the sum of its `Holding.total` line totals (tickle/models/products.py:229-231), the total cost `total_cost` intends. |
| `LegacyProducts.TotalCost` | tickle/models/products.py:138-140 | The intended total cost is 0 for no rows and non-negative when no product price is negative. |
| `LegacyProducts.TotalCostAppend` | tickle/models/products.py:138-140 | The intended total cost of two concatenated querysets is the sum of theirs. |
| `LegacyProducts.TotalCostAsWritten` | tickle/models/products.py:138-140 | The written query reports 0 for no rows and, with non-negative prices and at least one unit per row, never more than the intended total cost. |
| `LegacyProducts.TotalCostAsWrittenOnSingleUnits` | tickle/models/products.py:138-140 | When every row holds one unit, the written query's sum of product prices equals the intended sum of line totals. |
| `LegacyProducts.TotalCostAsWrittenDropsQuantity` | tickle/models/products.py:138-140 | Two tickets of 100.00: the written query reports 100.00, the intended total cost is 200.00. |
| `LegacyProducts.MoveCartHoldings` | tickle/models/products.py:262-269 | Each row in the cart becomes the moved row (cart cleared, purchase set, eligible discounts appended); every other row is unchanged. |
| `LegacyProducts.PurchaseCart` | tickle/models/products.py:258-269 | One new valid purchase for the cart's owner stamped `now`; every cart holding leaves the cart for that purchase keeping person, product, quantity and override and gaining the owner's eligible discounts, and each moved row passes `save`; other rows and earlier purchases are unchanged; no row is left in the cart. |
| `LegacyProducts.PurchasePreservesWellFormed` | tickle/models/products.py:258-269 | If every row has exactly one owner and names an existing purchase, the same holds after the conversion. |
| `LegacyProducts.PurchaseFreezesPrice` | tickle/models/products.py:266-267 | A cart holding of the cart's owner with no own discounts is charged after the conversion what it was charged before, whatever the eligibility rules become later. |
| `LegacyProducts.MovedQuantity` | tickle/models/products.py:262-264 | Over any rows not yet in the new purchase, the purchase receives exactly the units that were in the cart. |
| `LegacyProducts.MovedDiscountedTotal` | tickle/models/products.py:258-269 | When the cart's holdings belong to its owner and carry no own discounts, the new purchase's discounted total, under any later eligibility rules, equals the cart's discounted total before. |
| `LegacyProducts.PurchaseKeepsQuantity` | tickle/models/products.py:258-269 | On a well-formed database the new purchase's quantity equals the cart's quantity before. |
| `People.PadTwoOfSmall` | tickle/people/models.py:48-51 | Zero-padding a number below 100 to width two yields its two decimal digits. |
| `People.YearDigits` | tickle/people/models.py:48-49 | The last two characters of the year, zero-padded, are the two digits of the year modulo 100. |
| `People.RenderedCode` | tickle/people/models.py:52 | The stored code when present, `0000` when it is NULL or blank. |
| `People.Pid` | tickle/people/models.py:41-55 | No number without a birth date; otherwise a number ending with the rendered code. |
| `People.PidLayout` | tickle/people/models.py:43-53 | For a real date the number is YY, MM, DD (day plus 60 iff coordination number), a dash, and the code. |
| `People.PidDeterminesParts` | tickle/people/models.py:43-53 | Equal numbers mean equal year modulo 100, month, day, coordination flag and rendered code (a NULL, a blank and a `0000` code render alike). |
| `People.CleanPidCode` | tickle/people/models.py:36-39 | The intended normalisation of a cleaned code: a present code is kept, a NULL or blank one becomes NULL; the result is never blank. |
| `People.CleanPidCodeKeepsPid` | tickle/people/models.py:36-52 | Normalising the code does not change the rendered number. |
| `People.BlankCodesClashAsWritten` | tickle/people/models.py:22-39 | Two people born the same day, both with a blank code stored as entered, clash on the (birth date, code, coordination) uniqueness constraint; with normalised codes they do not. |
| `People.CleanedCodesClashOnlyWhenPresent` | tickle/people/models.py:170-175 | After normalisation a person without a present code clashes with nobody, and two people clash iff the first has a present code and they clash as entered. |
| `People.KobraQueryFor` | tickle/people/models.py:216-230 | Exactly one identifier in priority order: LiU id, personal number (only with both birth date and code), RFID, magnet card; none iff all are absent. |
| `People.KobraQueryIsFirstIdentifier` | tickle/people/models.py:203-224 | The request is the first entry of the person's available identifiers in the documented priority list. |
| `People.GetKobraData` | tickle/people/models.py:216-234 | As intended, with `KobraClient` importable: without an identifier, nothing when failing silently and a missing-identifier error otherwise; with one, the lookup's answer or its error. |
| `People.MergeKobraData` | tickle/people/models.py:244-260 | Names are taken from the answer only when blank or when overwriting; the parsed identity-number parts, LiU id and blocked flag always; missing card numbers become blank; the union only when given; email untouched. |
| `People.MergeKobraDataIdempotent` | tickle/people/models.py:247-257 | Merging the same answer twice equals merging it once. |
| `People.FillKobraData` | tickle/people/models.py:236-265 | As intended, with the lookup's names importable: the lookup's errors are raised iff not failing silently; a rejected personal number always raises, and with `save` so does a merged person `full_clean` rejects; otherwise the merged person, or the person unchanged when there is no answer; a set name survives unless overwriting, and the email always does. |
| `People.SilentFillStillRaisesOnBadNumber` | tickle/people/models.py:237-253 | Failing silently does not catch the parser's error: an answer with a rejected personal number raises. |
| `People.FillAllKobraData` | tickle/people/models.py:64-66 | As intended: every person before the first uncaught exception is filled and saved as a single fill would, every person from it on is left as stored; the batch stops only on a rejected personal number or a rejected save, never on a failed lookup; non-blank names and emails are kept. |
| `People.FillKobraDataAsWritten` | tickle/people/models.py:232-242 | As written the fill comes back, unchanged, only for a person without any identifier filled silently; otherwise it raises a NameError. |
| `People.FillKobraDataAsWrittenRaises` | tickle/people/models.py:232-242 | A student with a LiU id whom the lookup does not find: NameError as written, left unchanged as intended. |
| `People.FillAllKobraDataAsWritten` | tickle/people/models.py:64-66 | As written the batch changes nobody and stops with a NameError at the first person who has any identifier. |
| `People.FillAllAsWrittenAgreesWithoutIdentifiers` | tickle/people/models.py:64-66 | When nobody has an identifier the written and intended batches give the same result. |
| `People.FullName` | tickle/people/models.py:191-192 | First name, one space, last name. |
| `People.FullNameSplits` | tickle/people/models.py:191-192 | For a first name without spaces, splitting the full name at its first space gives back first and last name. |
| `People.ShortName` | tickle/people/models.py:194-195 | Fails iff the last name is blank; otherwise the full name up to the last name's initial, then a dot. |
| `People.CreateUserChecks` | tickle/people/models.py:88-91 | Passes iff username and password are both present; a missing username is reported first, then a missing password. |
| `People.CreateUser` | tickle/people/models.py:84-96 | Never creates a user: it raises the argument checks' error when they fail, and the unknown-`username` error of the model constructor exactly when they pass. |
| `People.CreateSuperuser` | tickle/people/models.py:98-107 | Never creates a user: a missing username, a missing password, or the unknown-`username` error, each under exactly its own condition. |
| `Products.PurchaseCart` | tickle/products/models.py:34-35 | The cart is purchased afterwards, stamped with the given time, and nothing else changes. |
| `Products.ChoiceDelta` | tickle/products/models.py:201-202 | The choice's delta is NULL exactly when its amount is blank, and otherwise the amount. |
| `Products.CleanAsWritten` | tickle/products/models.py:81-83 | As written every holding is refused with an AttributeError: the product has no `quantitative` attribute. |
| `Products.Clean` | tickle/products/models.py:81-83 | Given a `quantitative` flag, a holding passes iff the product is quantitative or the quantity is 1, and is otherwise refused with the quantity validation error. |
| `Products.CleanAsWrittenAlwaysRaises` | tickle/products/models.py:81-83 | Every holding the intended rule accepts (one unit, or a quantitative product) raises as written. |
| `Products.CleanAgreesWithLegacy` | tickle/products/models.py:81-83 | For the same flag and quantity the intended check accepts and refuses exactly what the older generation's `Holding.clean` (tickle/models/products.py:175-177) does. |
| `Products.VariationDelta` | tickle/products/models.py:99-102 | Succeeds iff every chosen choice has an amount; no choices give 0. |
| `Products.VariationDeltaAppend` | tickle/products/models.py:99-102 | The delta of two groups of priced choices is the sum of their deltas. |
| `Products.ComputeVariationDelta` | tickle/products/models.py:99-102 | The loop from 0 adding each choice's delta computes the variation delta, failing on a blank amount. |
| `Products.BlankStaysBlank` | tickle/products/models.py:101-102 | One chosen choice with a blank amount makes the whole delta fail. |
| `Products.VariationDeltaAsWritten` | tickle/products/models.py:99-102 | As written the loop over the related manager raises a TypeError for every holding. |
| `Products.ModifiedPriceAsWritten` | tickle/products/models.py:157-158 | As written `modified_price` returns `None`. |
| `Products.ModifiedPrice` | tickle/products/models.py:153-158 | The intended modified price differs from the base price by exactly the modifier delta; a negative delta lowers it and no delta keeps it. |
| `Products.ModifiedPriceIsPriceWithoutChoices` | tickle/products/models.py:153-158 | The intended modified price (base plus modifier delta) is the price of a holding without choices. |
| `Products.Price` | tickle/products/models.py:106-107 | Succeeds iff every choice has an amount, and then is base price plus modifier delta plus variation delta. |
| `Products.PriceAsWritten` | tickle/products/models.py:106-107 | As written the price always raises the TypeError of the variation-delta loop. |
| `Products.PriceAsWrittenNeverReturns` | tickle/products/models.py:99-107 | A 500.00 holding without choices or modifiers: TypeError as written, 500.00 as intended. |
| `Products.SingleChoicePrice` | tickle/products/models.py:201-202 | One choice moves the price by exactly its amount, a negative amount lowers it, a blank amount makes pricing fail. |
| `Products.PriceWithMoreChoices` | tickle/products/models.py:99-107 | Adding priced choices adds their delta to the price. |
| `Products.NewProduct` | tickle/products/models.py:115-140 | Defaults: personal limit 1, no total limit, published, transferable; key, main event, name and base price as given. |
| `Products.HasReachedLimit` | tickle/products/models.py:160-161 | Reached iff a non-zero total limit is set and the purchased quantity of this product's holdings is at least it; never with no limit. |
| `Products.PurchasedQuantity` | tickle/products/models.py:161 | Counts the units of the holdings whose product key is this product's only: each purchased holding of it is bounded by the count, and a queryset without it counts 0. |
| `Products.OtherProductsDoNotCount` | tickle/products/models.py:44-47 | Adding holdings of products with another key, even with the same name, price and limits at another main event, leaves a product's purchased quantity unchanged. |
| `Products.HasReachedLimitAsWritten` | tickle/products/models.py:161 | As written the check always raises an AttributeError. |
| `Products.HasReachedLimitAsWrittenRaises` | tickle/products/models.py:160-161 | A product with limit 1 and one unit sold: AttributeError as written, reached as intended. |
| `Products.NewProductUnlimited` | tickle/products/models.py:131-135 | A product with default limits never reaches its total limit. |
| `Products.PurchaseNeverLowersPurchasedQuantity` | tickle/products/models.py:34-35 | Stamping a cart as purchased never lowers a product's purchased quantity. |
| `Products.LimitStaysReached` | tickle/products/models.py:160-161 | A reached limit stays reached after another cart is purchased. |

## Left out

- ORM querysets, managers, aggregation SQL and migrations: the sums are modelled over sequences of rows; the row order the database returns does not matter for them.
- LegacyProducts.PurchaseCart: `atomic()` is modelled as one function from database to database; no concurrency or rollback is modelled, and since every moved row passes `save`, the conversion never fails.
- LegacyProducts.PurchaseCart: `copy_to_holding_discounts` is not part of this model; it is modelled as appending the eligible discounts to the holding's discounts.
- LegacyProducts.DiscountedPrice: a discount delta is assumed to be a whole number of hundredths; a percentage of a two-place price can have more digits, which the source carries through `discounted_total` and `discounted_total()` and the model does not.
- LegacyProducts.PurchaseFreezesPrice: holds for holdings of the cart's owner only, because the source copies discounts eligible for the cart's person while an unpurchased holding is priced with its own holder's.
- People.Pid: the setter and its parser `SEPersonalIdentityNumberField` are not part of this model, so no round trip through it is claimed; the Luhn check digit is never computed by the source either.
- People.FillKobraData: the database write of `save` is modelled as the `fullClean` check that precedes it; `StudentUnion.get_or_create` is modelled as the union name; the return value `None` on a silent failure is modelled as the person left unchanged; an error raised by the parser leaves the in-memory names already assigned, which the model does not keep, because they are never saved.
- People.GetKobraData: models the lookup with `KobraClient` importable; as written the name is never imported (see the findings, and `People.FillKobraDataAsWritten`).
- People.FillAllKobraData: the rules `full_clean` applies (required fields, uniqueness) and the parser's rules are parameters, so which people stop the batch is only as precise as those parameters.
- People.CreateUser: the success path (a person created with a hashed password and saved, then flagged by `create_superuser`) cannot be reached as written and is not modelled; password hashing is left out with it.
- People.CleanPidCode: models the normalisation `clean_pid_code` intends; as written it is never called on save and would raise if called (see the findings).
- Products.Clean: the intended rule needs a `quantitative` flag that the newer `Product` does not declare; the model takes it as a parameter.
- `KobraClient`, `create_user_and_login`, `clean_password`, `set_password` and authentication: external services and framework auth, passed as parameters or omitted.
- `send_ticket` and `TemplatedEmail`: email I/O.
- `HoldingQuerySet.purchased()` and `HoldingQuerySet.quantity()` of the newer generation (in `.querysets`) are not part of this model; `Products.PurchasedQuantity` assumes they select the holdings whose cart is stamped as purchased and sum their quantities.
- Products.PurchaseCart: `Cart.purchase` stamps the cart in memory only and never saves it; the `carts` map the limit check reads stands for the stored carts, so `Products.PurchaseNeverLowersPurchasedQuantity` and `Products.LimitStaysReached` assume the caller saves the stamped cart (without a save the purchased quantity does not change at all).
- Products.HasReachedLimit: the personal limit has no check in the source and none is modelled; a zero limit counts as no limit, following Python truthiness of `self.limit and ...`.
- tickle/products/models.py:178-179: the colon after the `ProductVariation` class and the one missing from the `ProductVariationChoice` header are a syntax error, so the file cannot be imported at all; there is no behaviour to model as written, and the model reads the header as intended.
- The form layout (orchard/forms.py), the React page (tickle-frontend) and the `.git` version reader (tickle/common/versioning.py) are outside the core.

## Findings

| source | as written | input that shows it | evidently intended | confidence | as-written member | corrected member |
|---|---|---|---|---|---|---|
| tickle/products/models.py:99-102 | `product_variation_choice_delta` loops over the related manager `self.product_variation_choices` instead of `.all()`, and a manager is not iterable, so every call raises TypeError at line 101; past that, the method has no `return`, so `price()` would add `None` | any holding, e.g. base price 500.00, no choices, no modifiers | loop over the chosen choices and return the sum of their deltas, so the price is 500.00 | high (not executed) | `Products.PriceAsWrittenNeverReturns` | `Products.ComputeVariationDelta` |
| tickle/products/models.py:161 | `has_reached_limit` reads `self.limit`, which `Product` does not have, so it raises AttributeError | total limit 1, one unit in a purchased cart | compare the total limit with the purchased quantity | high (not executed) | `Products.HasReachedLimitAsWrittenRaises` | `Products.HasReachedLimit` |
| tickle/products/models.py:157-158 | `modified_price` computes the sum and drops it, returning `None` | any product and person | return base price plus modifier delta | high (not executed) | `Products.ModifiedPriceAsWritten` | `Products.ModifiedPriceIsPriceWithoutChoices` |
| tickle/products/models.py:81-83 | `clean` reads `self.product.quantitative`, which the newer `Product` (lines 110-142) does not declare, so it raises AttributeError for every holding; behind it, the `ValidationError` it raises is never imported, a NameError | any holding, e.g. one unit | refuse a quantity other than 1 of a non-quantitative product with the quantity validation error | high (not executed) | `Products.CleanAsWrittenAlwaysRaises` | `Products.Clean` |
| tickle/models/products.py:138-140 | `Sum('price', field='price*quantity')` relies on a `field` keyword that the aggregate's SQL compilation overwrites with the compiled argument from Django 1.8 on (the repository's migrations were generated with Django 1.9.4, assumed here to be the release the project runs on), so the sum covers product prices only | one holding of two 100.00 tickets | sum price times quantity, 200.00 | medium (not executed) | `LegacyProducts.TotalCostAsWrittenDropsQuantity` | `LegacyProducts.TotalCost` |
| tickle/people/models.py:36-39 | `clean_pid_code` reads `self.cleaned_data`, which only forms have, and model validation never calls `clean_<field>` methods, so a blank code is stored as `''`, not NULL | two people born 1995-03-14, both with a blank code | store NULL so that the uniqueness constraint (lines 171-175) ignores blank codes | high (not executed) | `People.BlankCodesClashAsWritten` | `People.CleanedCodesClashOnlyWhenPresent` |
| tickle/people/models.py:232-242 | `KobraClient` (line 232) and `Unauthorized` and `StudentNotFound` (line 239) are never imported, so a person with any identifier raises NameError at 232, and a missing identifier that is not silenced raises NameError when the `except` tuple is evaluated; failing silently catches nothing; `SEPersonalIdentityNumberField` (line 58) is not imported either, behind them | a person with LiU id `annbe123` whom the lookup does not find, filled silently as line 66 does | look the person up and leave them unchanged when the lookup fails silently | high (not executed) | `People.FillKobraDataAsWrittenRaises` | `People.FillKobraData` |

=== FILE: legacy_products.dfy ===
/** The older schema generation of the ticketing backend
    (tickle/models/products.py): products, holdings (one line item of a
    person's order), shopping carts and purchases, with the holding
    validation rules, discounted pricing, the queryset sums and the
    cart-to-purchase conversion.

    Money is Django's `DecimalField(decimal_places=2)`, modelled exactly as
    an integer number of hundredths. */
module LegacyProducts {
  import opened Wrappers

  type Cents = int
  type PersonId = nat
  type CartId = nat
  /** A purchase is identified by its position in `Db.purchases`. */
  type PurchaseId = nat
  type Time = int

  /** A discount rule; its behaviour is only reached through `DiscountRules`. */
  datatype Discount = Discount(id: nat)

  /** The discount behaviour the model does not see inside:
      `Discount.delta(price)` and `product_discounts.eligible(person)`. */
  datatype DiscountRules = DiscountRules(
    delta: (Discount, Cents) -> Cents,
    eligible: (Product, PersonId) -> seq<Discount>)

  datatype Product = Product(
    id: nat,
    name: string,
    publicNameField: Option<string>,
    price: Cents,
    quantitative: bool,
    published: bool,
    transferable: bool)

  datatype Holding = Holding(
    person: PersonId,
    product: Product,
    purchase: Option<PurchaseId>,
    shoppingCart: Option<CartId>,
    transferableOverride: Option<bool>,
    quantity: nat,
    holdingDiscounts: seq<Discount>)

  datatype ShoppingCart = ShoppingCart(id: CartId, person: PersonId)

  datatype Purchase = Purchase(person: PersonId, purchased: Time, valid: bool)

  /** The rows the cart-to-purchase conversion reads and writes. */
  datatype Db = Db(holdings: seq<Holding>, purchases: seq<Purchase>)

  datatype ValidationError =
    | QuantityMustBeOne
    | BothCartAndPurchase
    | NeitherCartNorPurchase

  // ---------------------------------------------------------------------
  // Product

  /** The name shown to customers: the public name unless it is NULL or
      blank, otherwise the internal name. */
  function PublicName(p: Product): (r: string)
    ensures p.publicNameField.Some? && p.publicNameField.value != "" ==> r == p.publicNameField.value
    ensures p.publicNameField.None? || p.publicNameField.value == "" ==> r == p.name
    ensures r == "" ==> p.name == ""
  {
    match p.publicNameField
    case Some(s) => if s != "" then s else p.name
    case None => p.name
  }

  // ---------------------------------------------------------------------
  // Holding validation

  /** `Holding.clean`: only a quantitative product may be held in a
      quantity other than one. */
  function Clean(h: Holding): (r: Outcome<ValidationError>)
    ensures !h.product.quantitative ==> (r.Pass? <==> h.quantity == 1)
    ensures h.product.quantitative ==> r.Pass?
    ensures r.Fail? ==> r.error == QuantityMustBeOne
  {
    if !h.product.quantitative && h.quantity != 1 then Fail(QuantityMustBeOne) else Pass
  }

  /** A holding is attached to exactly one of a cart and a purchase. */
  predicate OwnedOnce(h: Holding) {
    h.shoppingCart.Some? != h.purchase.Some?
  }

  /** `Holding.save`: the row is written only when it is attached to
      exactly one of a cart and a purchase. */
  function Save(h: Holding): (r: Result<Holding, ValidationError>)
    ensures r.Success? <==> OwnedOnce(h)
    ensures r.Success? ==> r.value == h
    ensures h.shoppingCart.Some? && h.purchase.Some? ==> r == Failure(BothCartAndPurchase)
    ensures h.shoppingCart.None? && h.purchase.None? ==> r == Failure(NeitherCartNorPurchase)
  {
    if h.shoppingCart.Some? && h.purchase.Some? then Failure(BothCartAndPurchase)
    else if h.shoppingCart.None? && h.purchase.None? then Failure(NeitherCartNorPurchase)
    else Success(h)
  }

  // ---------------------------------------------------------------------
  // Transferability

  /** The `transferable` property: the holding's own override, or the
      product setting when the override is NULL. */
  function Transferable(h: Holding): (r: bool)
    ensures h.transferableOverride.Some? ==> r == h.transferableOverride.value
    ensures h.transferableOverride.None? ==> r == h.product.transferable
  {
    h.transferableOverride.GetOr(h.product.transferable)
  }

  /** The `transferable` setter: stores the override (NULL clears it). */
  function SetTransferable(h: Holding, value: Option<bool>): (r: Holding)
    ensures Transferable(r) == if value.Some? then value.value else h.product.transferable
    ensures r.(transferableOverride := h.transferableOverride) == h
  {
    h.(transferableOverride := value)
  }

  // ---------------------------------------------------------------------
  // Prices

  /** Subtract each discount's delta, taken of the running price, in order. */
  function ApplyDiscounts(price: Cents, ds: seq<Discount>, delta: (Discount, Cents) -> Cents): Cents
    decreases |ds|
  {
    if ds == [] then price else ApplyDiscounts(price - delta(ds[0], price), ds[1..], delta)
  }

  /** Applying two runs of discounts one after the other is applying their
      concatenation. */
  lemma {:induction false} ApplyDiscountsAppend(price: Cents, a: seq<Discount>, b: seq<Discount>, delta: (Discount, Cents) -> Cents)
    ensures ApplyDiscounts(price, a + b, delta) == ApplyDiscounts(ApplyDiscounts(price, a, delta), b, delta)
    decreases |a|
  {
    if a == [] {
      assert a + b == b;
    } else {
      assert (a + b)[1..] == a[1..] + b;
      ApplyDiscountsAppend(price - delta(a[0], price), a[1..], b, delta);
    }
  }

  /** One more discount at the end subtracts its delta of the price reached so far. */
  lemma ApplyDiscountsSnoc(price: Cents, ds: seq<Discount>, d: Discount, delta: (Discount, Cents) -> Cents)
    ensures ApplyDiscounts(price, ds + [d], delta)
         == ApplyDiscounts(price, ds, delta) - delta(d, ApplyDiscounts(price, ds, delta))
  {
    ApplyDiscountsAppend(price, ds, [d], delta);
  }

  /** Discounts that never add to the price can only lower it. */
  lemma {:induction false} DiscountsNeverRaisePrice(price: Cents, ds: seq<Discount>, delta: (Discount, Cents) -> Cents)
    requires forall d, q :: delta(d, q) >= 0
    ensures ApplyDiscounts(price, ds, delta) <= price
    decreases |ds|
  {
    if ds != [] {
      DiscountsNeverRaisePrice(price - delta(ds[0], price), ds[1..], delta);
    }
  }

  /** The discounts that apply to a holding: those frozen onto it once it is
      purchased, otherwise the product discounts the holder is eligible for. */
  function ActiveDiscounts(h: Holding, rules: DiscountRules): seq<Discount> {
    if h.purchase.Some? then h.holdingDiscounts else rules.eligible(h.product, h.person)
  }

  /** `Holding.discounted_price`. */
  function DiscountedPrice(h: Holding, rules: DiscountRules): (r: Cents)
    ensures ActiveDiscounts(h, rules) == [] ==> r == h.product.price
    ensures h.purchase.Some? ==> r == ApplyDiscounts(h.product.price, h.holdingDiscounts, rules.delta)
    ensures h.purchase.None? ==> r == ApplyDiscounts(h.product.price, rules.eligible(h.product, h.person), rules.delta)
  {
    ApplyDiscounts(h.product.price, ActiveDiscounts(h, rules), rules.delta)
  }

  /** `Holding.discounted_price` as the source computes it: a loop over the
      active discounts that subtracts each delta from the running price. */
  method ComputeDiscountedPrice(h: Holding, rules: DiscountRules) returns (price: Cents)
    ensures price == DiscountedPrice(h, rules)
  {
    var ds := ActiveDiscounts(h, rules);
    price := h.product.price;
    var i := 0;
    while i < |ds|
      invariant 0 <= i <= |ds|
      invariant price == ApplyDiscounts(h.product.price, ds[..i], rules.delta)
    {
      ApplyDiscountsSnoc(h.product.price, ds[..i], ds[i], rules.delta);
      assert ds[..i + 1] == ds[..i] + [ds[i]];
      price := price - rules.delta(ds[i], price);
      i := i + 1;
    }
    assert ds[..i] == ds;
  }

  /** Once a holding is purchased its price depends only on the discounts
      frozen onto it, never on which product discounts are eligible now. */
  lemma PurchasedPriceIgnoresEligibility(h: Holding, delta: (Discount, Cents) -> Cents,
                                         e1: (Product, PersonId) -> seq<Discount>,
                                         e2: (Product, PersonId) -> seq<Discount>)
    requires h.purchase.Some?
    ensures DiscountedPrice(h, DiscountRules(delta, e1)) == DiscountedPrice(h, DiscountRules(delta, e2))
  {
  }

  /** `Holding.total`: undiscounted line total. */
  function Total(h: Holding): (r: Cents)
    ensures h.quantity == 0 ==> r == 0
    ensures h.quantity == 1 ==> r == h.product.price
    ensures h.product.price >= 0 ==> r >= 0
  {
    h.product.price * h.quantity
  }

  /** `Holding.discounted_total`: discounted line total. */
  function DiscountedTotal(h: Holding, rules: DiscountRules): (r: Cents)
    ensures h.quantity == 0 ==> r == 0
    ensures h.quantity == 1 ==> r == DiscountedPrice(h, rules)
    ensures DiscountedPrice(h, rules) >= 0 ==> r >= 0
  {
    DiscountedPrice(h, rules) * h.quantity
  }

  /** Without any applicable discount the two line totals agree; with
      discounts that never add to the price the discounted one is no larger. */
  lemma LineTotals(h: Holding, rules: DiscountRules)
    ensures ActiveDiscounts(h, rules) == [] ==> DiscountedTotal(h, rules) == Total(h)
    ensures (forall d, q :: rules.delta(d, q) >= 0) ==> DiscountedTotal(h, rules) <= Total(h)
  {
    if forall d, q :: rules.delta(d, q) >= 0 {
      DiscountsNeverRaisePrice(h.product.price, ActiveDiscounts(h, rules), rules.delta);
      MultiplyMonotone(DiscountedPrice(h, rules), h.product.price, h.quantity);
    }
  }

  lemma MultiplyMonotone(a: int, b: int, n: nat)
    requires a <= b
    ensures a * n <= b * n
  {
  }

  // ---------------------------------------------------------------------
  // Queryset sums

  /** `HoldingQuerySet.quantity`: the summed quantity, 0 for no rows. */
  function Quantity(hs: seq<Holding>): (r: nat)
    ensures hs == [] ==> r == 0
    ensures forall i :: 0 <= i < |hs| ==> hs[i].quantity <= r
    decreases |hs|
  {
    if hs == [] then 0 else Quantity(hs[..|hs| - 1]) + hs[|hs| - 1].quantity
  }

  /** The total cost `HoldingQuerySet.total_cost` evidently intends: the
      summed undiscounted line totals (`Holding.total`), 0 for no rows. */
  function TotalCost(hs: seq<Holding>): (r: Cents)
    ensures hs == [] ==> r == 0
    ensures (forall i :: 0 <= i < |hs| ==> hs[i].product.price >= 0) ==> r >= 0
    decreases |hs|
  {
    if hs == [] then 0 else TotalCost(hs[..|hs| - 1]) + Total(hs[|hs| - 1])
  }

  /** `HoldingQuerySet.total_cost` as written: the `field='price*quantity'`
      keyword is overwritten by the compiled argument when the aggregate is
      turned into SQL, so the query sums the annotated product price of
      each row and the quantity drops out. */
  function TotalCostAsWritten(hs: seq<Holding>): (r: Cents)
    ensures hs == [] ==> r == 0
    ensures (forall i :: 0 <= i < |hs| ==> hs[i].product.price >= 0 && hs[i].quantity >= 1) ==> r <= TotalCost(hs)
    decreases |hs|
  {
    if hs == [] then 0
    else
      PriceAtMostTotal(hs[|hs| - 1]);
      TotalCostAsWritten(hs[..|hs| - 1]) + hs[|hs| - 1].product.price
  }

  /** With at least one unit and a non-negative price, a row's price is at
      most its line total. */
  lemma PriceAtMostTotal(h: Holding)
    ensures h.product.price >= 0 && h.quantity >= 1 ==> h.product.price <= Total(h)
  {
    if h.product.price >= 0 && h.quantity >= 1 {
      var k: nat := h.quantity - 1;
      assert h.product.price * h.quantity == h.product.price + h.product.price * k;
      assert h.product.price * k >= 0;
    }
  }

  /** The written sum is right whenever every row holds a single unit:
      then each row's price is its line total. */
  lemma {:induction false} TotalCostAsWrittenOnSingleUnits(hs: seq<Holding>)
    requires forall i :: 0 <= i < |hs| ==> hs[i].quantity == 1
    ensures TotalCostAsWritten(hs) == TotalCost(hs)
    decreases |hs|
  {
    if hs != [] {
      TotalCostAsWrittenOnSingleUnits(hs[..|hs| - 1]);
    }
  }

  /** Two tickets of 100.00 cost 200.00, and the written query reports
      100.00. */
  lemma TotalCostAsWrittenDropsQuantity()
    ensures var p := Product(1, "Biljett", None, 10000, true, true, true);
      var hs := [Holding(0, p, Some(0), None, None, 2, [])];
      TotalCostAsWritten(hs) == 10000 && TotalCost(hs) == 20000
  {
  }

  /** `HoldingQuerySet.discounted_total`: the summed discounted line totals. */
  function SumDiscountedTotals(hs: seq<Holding>, rules: DiscountRules): (r: Cents)
    ensures hs == [] ==> r == 0
    ensures (forall i :: 0 <= i < |hs| ==> DiscountedTotal(hs[i], rules) >= 0) ==> r >= 0
    decreases |hs|
  {
    if hs == [] then 0 else SumDiscountedTotals(hs[..|hs| - 1], rules) + DiscountedTotal(hs[|hs| - 1], rules)
  }

  /** The quantity of a union of two querysets is the sum of their quantities. */
  lemma {:induction false} QuantityAppend(a: seq<Holding>, b: seq<Holding>)
    ensures Quantity(a + b) == Quantity(a) + Quantity(b)
    decreases |b|
  {
    if b == [] {
      assert a + b == a;
    } else {
      var b' := b[..|b| - 1];
      assert (a + b)[..|a + b| - 1] == a + b';
      QuantityAppend(a, b');
    }
  }

  /** Every valid holding of a non-quantitative product counts exactly once. */
  lemma {:induction false} QuantityCountsSingleHoldings(hs: seq<Holding>)
    requires forall i :: 0 <= i < |hs| ==> !hs[i].product.quantitative && Clean(hs[i]).Pass?
    ensures Quantity(hs) == |hs|
    decreases |hs|
  {
    if hs != [] {
      QuantityCountsSingleHoldings(hs[..|hs| - 1]);
    }
  }

  /** The queryset's `discounted_total` as the source computes it: a loop
      that starts from 0.00 and adds each holding's discounted total. */
  method ComputeDiscountedTotal(hs: seq<Holding>, rules: DiscountRules) returns (total: Cents)
    ensures total == SumDiscountedTotals(hs, rules)
  {
    total := 0;
    var i := 0;
    while i < |hs|
      invariant 0 <= i <= |hs|
      invariant total == SumDiscountedTotals(hs[..i], rules)
    {
      assert hs[..i + 1][..i] == hs[..i];
      total := total + DiscountedTotal(hs[i], rules);
      i := i + 1;
    }
    assert hs[..i] == hs;
  }

  /** The discounted total of a union of two querysets is the sum of theirs. */
  lemma {:induction false} SumDiscountedTotalsAppend(a: seq<Holding>, b: seq<Holding>, rules: DiscountRules)
    ensures SumDiscountedTotals(a + b, rules) == SumDiscountedTotals(a, rules) + SumDiscountedTotals(b, rules)
    decreases |b|
  {
    if b == [] {
      assert a + b == a;
    } else {
      var b' := b[..|b| - 1];
      assert (a + b)[..|a + b| - 1] == a + b';
      SumDiscountedTotalsAppend(a, b', rules);
    }
  }

  /** The total cost of a union of two querysets is the sum of theirs. */
  lemma {:induction false} TotalCostAppend(a: seq<Holding>, b: seq<Holding>)
    ensures TotalCost(a + b) == TotalCost(a) + TotalCost(b)
    decreases |b|
  {
    if b == [] {
      assert a + b == a;
    } else {
      var b' := b[..|b| - 1];
      assert (a + b)[..|a + b| - 1] == a + b';
      TotalCostAppend(a, b');
    }
  }

  /** When no holding has an applicable discount, the discounted total of a
      queryset is its undiscounted total cost. */
  lemma {:induction false} DiscountedTotalWithoutDiscounts(hs: seq<Holding>, rules: DiscountRules)
    requires forall i :: 0 <= i < |hs| ==> ActiveDiscounts(hs[i], rules) == []
    ensures SumDiscountedTotals(hs, rules) == TotalCost(hs)
    decreases |hs|
  {
    if hs != [] {
      DiscountedTotalWithoutDiscounts(hs[..|hs| - 1], rules);
      LineTotals(hs[|hs| - 1], rules);
    }
  }

  // ---------------------------------------------------------------------
  // Cart to purchase

  predicate InCart(h: Holding, cart: ShoppingCart) {
    h.shoppingCart == Some(cart.id)
  }

  /** One holding moved out of the cart into the purchase, with the cart
      owner's eligible product discounts copied onto it. */
  function MoveToPurchase(h: Holding, cart: ShoppingCart, pid: PurchaseId, rules: DiscountRules): Holding {
    h.(shoppingCart := None,
       purchase := Some(pid),
       holdingDiscounts := h.holdingDiscounts + rules.eligible(h.product, cart.person))
  }

  /** The loop of `ShoppingCart.purchase` over every holding row: those in
      the cart move to the purchase, the others are left alone. */
  function MoveCartHoldings(hs: seq<Holding>, cart: ShoppingCart, pid: PurchaseId, rules: DiscountRules): (r: seq<Holding>)
    ensures |r| == |hs|
    ensures forall i :: 0 <= i < |hs| && InCart(hs[i], cart) ==> r[i] == MoveToPurchase(hs[i], cart, pid, rules)
    ensures forall i :: 0 <= i < |hs| && !InCart(hs[i], cart) ==> r[i] == hs[i]
    decreases |hs|
  {
    if hs == [] then []
    else
      var last := hs[|hs| - 1];
      MoveCartHoldings(hs[..|hs| - 1], cart, pid, rules)
        + [if InCart(last, cart) then MoveToPurchase(last, cart, pid, rules) else last]
  }

  /** Every holding row is attached to exactly one owner, and every purchase
      it names exists. */
  predicate WellFormed(db: Db) {
    forall i :: 0 <= i < |db.holdings| ==>
      OwnedOnce(db.holdings[i])
      && (db.holdings[i].purchase.Some? ==> db.holdings[i].purchase.value < |db.purchases|)
  }

  /** `ShoppingCart.purchase` as one all-or-nothing step: create a valid
      purchase for the cart's owner stamped `now`, and move every holding of
      the cart into it. */
  function PurchaseCart(db: Db, cart: ShoppingCart, now: Time, rules: DiscountRules): (r: Db)
    ensures |r.purchases| == |db.purchases| + 1
    ensures r.purchases[..|db.purchases|] == db.purchases
    ensures r.purchases[|db.purchases|] == Purchase(cart.person, now, true)
    ensures |r.holdings| == |db.holdings|
    ensures forall i :: 0 <= i < |db.holdings| && InCart(db.holdings[i], cart) ==>
      && r.holdings[i].shoppingCart.None?
      && r.holdings[i].purchase == Some(|db.purchases|)
      && r.holdings[i].person == db.holdings[i].person
      && r.holdings[i].product == db.holdings[i].product
      && r.holdings[i].quantity == db.holdings[i].quantity
      && r.holdings[i].transferableOverride == db.holdings[i].transferableOverride
      && r.holdings[i].holdingDiscounts
         == db.holdings[i].holdingDiscounts + rules.eligible(db.holdings[i].product, cart.person)
      && Save(r.holdings[i]).Success?
    ensures forall i :: 0 <= i < |db.holdings| && !InCart(db.holdings[i], cart) ==> r.holdings[i] == db.holdings[i]
    ensures forall i :: 0 <= i < |r.holdings| ==> !InCart(r.holdings[i], cart)
  {
    var pid := |db.purchases|;
    Db(MoveCartHoldings(db.holdings, cart, pid, rules), db.purchases + [Purchase(cart.person, now, true)])
  }

  /** The conversion keeps every row attached to exactly one existing owner. */
  lemma PurchasePreservesWellFormed(db: Db, cart: ShoppingCart, now: Time, rules: DiscountRules)
    requires WellFormed(db)
    ensures WellFormed(PurchaseCart(db, cart, now, rules))
  {
  }

  /** A holding with no discounts of its own is charged the same after the
      conversion as the cart showed before it, and from then on its price no
      longer follows the eligibility rules: it is frozen. */
  lemma PurchaseFreezesPrice(db: Db, cart: ShoppingCart, now: Time, rules: DiscountRules,
                             later: (Product, PersonId) -> seq<Discount>, i: nat)
    requires WellFormed(db)
    requires i < |db.holdings| && InCart(db.holdings[i], cart)
    requires db.holdings[i].holdingDiscounts == []
    requires db.holdings[i].person == cart.person
    ensures DiscountedPrice(PurchaseCart(db, cart, now, rules).holdings[i], DiscountRules(rules.delta, later))
         == DiscountedPrice(db.holdings[i], rules)
  {
    var h := db.holdings[i];
    var h' := PurchaseCart(db, cart, now, rules).holdings[i];
    assert h.purchase.None?;
    assert h'.holdingDiscounts == [] + rules.eligible(h.product, cart.person);
    assert [] + rules.eligible(h.product, cart.person) == rules.eligible(h.product, cart.person);
  }

  /** The holdings of a cart, in row order. */
  function CartHoldings(hs: seq<Holding>, cart: ShoppingCart): seq<Holding>
    decreases |hs|
  {
    if hs == [] then []
    else
      var last := hs[|hs| - 1];
      CartHoldings(hs[..|hs| - 1], cart) + (if InCart(last, cart) then [last] else [])
  }

  /** The holdings of a purchase, in row order. */
  function PurchaseHoldings(hs: seq<Holding>, pid: PurchaseId): seq<Holding>
    decreases |hs|
  {
    if hs == [] then []
    else
      var last := hs[|hs| - 1];
      PurchaseHoldings(hs[..|hs| - 1], pid) + (if last.purchase == Some(pid) then [last] else [])
  }

  /** Moving the rows keeps the quantity: the new purchase holds as many
      units as the cart did. */
  lemma {:induction false} MovedQuantity(hs: seq<Holding>, cart: ShoppingCart, pid: PurchaseId, rules: DiscountRules)
    requires forall i :: 0 <= i < |hs| ==> hs[i].purchase != Some(pid)
    ensures Quantity(PurchaseHoldings(MoveCartHoldings(hs, cart, pid, rules), pid)) == Quantity(CartHoldings(hs, cart))
    decreases |hs|
  {
    if hs != [] {
      var init := hs[..|hs| - 1];
      var last := hs[|hs| - 1];
      var moved := MoveCartHoldings(hs, cart, pid, rules);
      assert moved[..|moved| - 1] == MoveCartHoldings(init, cart, pid, rules);
      MovedQuantity(init, cart, pid, rules);
      var tail := if InCart(last, cart) then [MoveToPurchase(last, cart, pid, rules)] else [];
      var tail0 := if InCart(last, cart) then [last] else [];
      assert PurchaseHoldings(moved, pid) == PurchaseHoldings(MoveCartHoldings(init, cart, pid, rules), pid) + tail;
      QuantityAppend(PurchaseHoldings(MoveCartHoldings(init, cart, pid, rules), pid), tail);
      QuantityAppend(CartHoldings(init, cart), tail0);
    }
  }

  /** The new purchase is billed what the cart showed: when the cart's
      holdings belong to its owner and carry no discounts of their own, the
      purchase's discounted total, under any later eligibility rules, equals
      the cart's discounted total before the conversion. */
  lemma {:induction false} MovedDiscountedTotal(hs: seq<Holding>, cart: ShoppingCart, pid: PurchaseId, rules: DiscountRules,
                                                later: (Product, PersonId) -> seq<Discount>)
    requires forall i :: 0 <= i < |hs| ==> hs[i].purchase != Some(pid)
    requires forall i :: 0 <= i < |hs| && InCart(hs[i], cart) ==>
      hs[i].purchase.None? && hs[i].holdingDiscounts == [] && hs[i].person == cart.person
    ensures SumDiscountedTotals(PurchaseHoldings(MoveCartHoldings(hs, cart, pid, rules), pid), DiscountRules(rules.delta, later))
         == SumDiscountedTotals(CartHoldings(hs, cart), rules)
    decreases |hs|
  {
    if hs != [] {
      var init := hs[..|hs| - 1];
      var last := hs[|hs| - 1];
      var moved := MoveCartHoldings(hs, cart, pid, rules);
      var movedInit := MoveCartHoldings(init, cart, pid, rules);
      assert moved[..|moved| - 1] == movedInit;
      MovedDiscountedTotal(init, cart, pid, rules, later);
      var h' := MoveToPurchase(last, cart, pid, rules);
      var tail := if InCart(last, cart) then [h'] else [];
      var tail0 := if InCart(last, cart) then [last] else [];
      assert PurchaseHoldings(moved, pid) == PurchaseHoldings(movedInit, pid) + tail;
      SumDiscountedTotalsAppend(PurchaseHoldings(movedInit, pid), tail, DiscountRules(rules.delta, later));
      SumDiscountedTotalsAppend(CartHoldings(init, cart), tail0, rules);
      if InCart(last, cart) {
        assert h'.holdingDiscounts == rules.eligible(last.product, last.person);
        assert DiscountedPrice(h', DiscountRules(rules.delta, later)) == DiscountedPrice(last, rules);
        assert SumDiscountedTotals([h'], DiscountRules(rules.delta, later)) == DiscountedTotal(h', DiscountRules(rules.delta, later));
        assert SumDiscountedTotals([last], rules) == DiscountedTotal(last, rules);
      }
    }
  }

  /** After the conversion the new purchase holds exactly the units that
      were in the cart. */
  lemma PurchaseKeepsQuantity(db: Db, cart: ShoppingCart, now: Time, rules: DiscountRules)
    requires WellFormed(db)
    ensures Quantity(PurchaseHoldings(PurchaseCart(db, cart, now, rules).holdings, |db.purchases|))
         == Quantity(CartHoldings(db.holdings, cart))
  {
    MovedQuantity(db.holdings, cart, |db.purchases|, rules);
  }
}

=== FILE: people.dfy ===
/** Person identity logic (tickle/people/models.py): the Swedish national
    identity number rendered from its stored parts, the choice of identifier
    sent to the KOBRA student lookup, the merge of a lookup answer into the
    person, name formatting and the user-creation argument checks.

    The identity number follows Skatteverket's layout YYMMDD-NNNN
    (SKV 704); a coordination number (samordningsnummer, SKV 707) has 60
    added to the day. */
module People {
  import opened Wrappers

  /** A Python `date`; `ValidDate` states the range the type guarantees. */
  datatype Date = Date(year: nat, month: nat, day: nat)

  predicate ValidDate(d: Date) {
    1 <= d.year <= 9999 && 1 <= d.month <= 12 && 1 <= d.day <= 31
  }

  datatype Person = Person(
    firstName: string,
    lastName: string,
    email: string,
    birthDate: Option<Date>,
    pidCode: Option<string>,
    pidCoordination: bool,
    liuId: Option<string>,
    liuIdBlocked: Option<bool>,
    liuCardMagnet: string,
    liuCardRfid: string,
    studentUnion: Option<string>)

  /** Python truthiness of a nullable text column: neither NULL nor blank. */
  predicate Present(s: Option<string>) {
    s.Some? && s.value != ""
  }

  // ---------------------------------------------------------------------
  // Digits

  function DigitChar(d: nat): char
    requires d < 10
  {
    ('0' as int + d) as char
  }

  predicate IsDigit(c: char) {
    '0' <= c <= '9'
  }

  /** `str(n)` for a non-negative integer. */
  function NatToString(n: nat): (s: string)
    ensures |s| >= 1
    ensures forall i :: 0 <= i < |s| ==> IsDigit(s[i])
    ensures s[|s| - 1] == DigitChar(n % 10)
    ensures n < 10 <==> |s| == 1
  {
    if n < 10 then [DigitChar(n)] else NatToString(n / 10) + [DigitChar(n % 10)]
  }

  /** `s[-2:]`. */
  function LastTwo(s: string): string {
    if |s| >= 2 then s[|s| - 2..] else s
  }

  /** `'{:0>2}'.format(s)`: left-pad with zeros to width two; never truncates. */
  function PadTwo(s: string): string {
    if |s| >= 2 then s else seq(2 - |s|, _ => '0') + s
  }

  /** The reference rendering of a number below 100 as exactly two digits. */
  function TwoDigits(n: nat): string
    requires n < 100
  {
    [DigitChar(n / 10), DigitChar(n % 10)]
  }

  lemma {:induction false} PadTwoOfSmall(n: nat)
    requires n < 100
    ensures PadTwo(NatToString(n)) == TwoDigits(n)
  {
  }

  /** The last two characters of a year, zero padded, are the year modulo 100. */
  lemma {:induction false} YearDigits(y: nat)
    ensures PadTwo(LastTwo(NatToString(y))) == TwoDigits(y % 100)
  {
    if y < 10 {
      assert NatToString(y) == [DigitChar(y)];
    } else {
      var s := NatToString(y);
      var h := NatToString(y / 10);
      assert s == h + [DigitChar(y % 10)];
      assert h[|h| - 1] == DigitChar((y / 10) % 10);
      assert LastTwo(s) == [DigitChar((y / 10) % 10), DigitChar(y % 10)];
      DivModTens(y);
    }
  }

  lemma DivModTens(y: nat)
    ensures (y / 10) % 10 == (y % 100) / 10
    ensures y % 10 == (y % 100) % 10
  {
    var q := y / 100;
    var r := y % 100;
    assert y == 100 * q + r;
    assert y / 10 == 10 * q + r / 10;
    assert y % 10 == r % 10;
  }

  lemma TwoDigitsInjective(a: nat, b: nat)
    requires a < 100 && b < 100
    requires TwoDigits(a) == TwoDigits(b)
    ensures a == b
  {
  }

  // ---------------------------------------------------------------------
  // National identity number

  /** The code part of the rendered number: the stored code, or `0000` when
      it is NULL or blank. */
  function RenderedCode(p: Person): (r: string)
    ensures Present(p.pidCode) ==> r == p.pidCode.value
    ensures !Present(p.pidCode) ==> r == "0000"
  {
    if Present(p.pidCode) then p.pidCode.value else "0000"
  }

  function PidDay(p: Person, d: Date): nat {
    if p.pidCoordination then d.day + 60 else d.day
  }

  /** `PidMixin._get_pid`: NULL without a birth date, otherwise YYMMDD-code. */
  function Pid(p: Person): (r: Option<string>)
    ensures r.None? <==> p.birthDate.None?
    ensures r.Some? ==> |r.value| >= 7 + |RenderedCode(p)| && r.value[|r.value| - |RenderedCode(p)|..] == RenderedCode(p)
  {
    match p.birthDate
    case None => None
    case Some(d) =>
      Some(PadTwo(LastTwo(NatToString(d.year)))
           + PadTwo(NatToString(d.month))
           + PadTwo(NatToString(PidDay(p, d)))
           + "-" + RenderedCode(p))
  }

  /** With a real date the number is exactly two digits of the year, two of
      the month, two of the day (plus 60 for a coordination number), a dash
      and the code. */
  lemma PidLayout(p: Person)
    requires p.birthDate.Some? && ValidDate(p.birthDate.value)
    ensures var d := p.birthDate.value;
      Pid(p) == Some(TwoDigits(d.year % 100) + TwoDigits(d.month)
                     + TwoDigits(if p.pidCoordination then d.day + 60 else d.day)
                     + "-" + RenderedCode(p))
  {
    var d := p.birthDate.value;
    YearDigits(d.year);
    PadTwoOfSmall(d.month);
    PadTwoOfSmall(PidDay(p, d));
  }

  /** The rendered number pins down the stored parts: year modulo 100,
      month, day, coordination flag and rendered code. Two people with the
      same number agree on all of them. */
  lemma PidDeterminesParts(p: Person, q: Person)
    requires p.birthDate.Some? && ValidDate(p.birthDate.value)
    requires q.birthDate.Some? && ValidDate(q.birthDate.value)
    requires Pid(p) == Pid(q)
    ensures p.birthDate.value.year % 100 == q.birthDate.value.year % 100
    ensures p.birthDate.value.month == q.birthDate.value.month
    ensures p.birthDate.value.day == q.birthDate.value.day
    ensures p.pidCoordination == q.pidCoordination
    ensures RenderedCode(p) == RenderedCode(q)
  {
    var a := p.birthDate.value;
    var b := q.birthDate.value;
    PidLayout(p);
    PidLayout(q);
    SplitLayout(TwoDigits(a.year % 100), TwoDigits(a.month), TwoDigits(PidDay(p, a)), RenderedCode(p),
                TwoDigits(b.year % 100), TwoDigits(b.month), TwoDigits(PidDay(q, b)), RenderedCode(q));
    TwoDigitsInjective(a.year % 100, b.year % 100);
    TwoDigitsInjective(a.month, b.month);
    TwoDigitsInjective(PidDay(p, a), PidDay(q, b));
  }

  /** Two renderings made of two-character fields, a dash and a code are
      equal only field by field. */
  lemma SplitLayout(y: string, m: string, d: string, c: string, y': string, m': string, d': string, c': string)
    requires |y| == |m| == |d| == |y'| == |m'| == |d'| == 2
    requires y + m + d + "-" + c == y' + m' + d' + "-" + c'
    ensures y == y' && m == m' && d == d' && c == c'
  {
    var s := y + m + d + "-" + c;
    var s' := y' + m' + d' + "-" + c';
    assert s[0..2] == y && s'[0..2] == y';
    assert s[2..4] == m && s'[2..4] == m';
    assert s[4..6] == d && s'[4..6] == d';
    assert s[7..] == c && s'[7..] == c';
  }

  /** The normalisation `PidMixin.clean_pid_code` intends: a blank code
      becomes NULL, so that the uniqueness constraint on birth date, code
      and coordination flag ignores it. */
  function CleanPidCode(code: Option<string>): (r: Option<string>)
    ensures r.None? || r.value != ""
    ensures Present(code) ==> r == code
    ensures !Present(code) ==> r.None?
  {
    if Present(code) then code else None
  }

  /** Normalising the code never changes the rendered number. */
  lemma CleanPidCodeKeepsPid(p: Person)
    ensures Pid(p.(pidCode := CleanPidCode(p.pidCode))) == Pid(p)
  {
  }

  /** `unique_together` on (birth date, code, coordination flag): two people
      clash when all three are equal and none is NULL, because NULL never
      equals NULL in the database while `''` equals `''`. */
  predicate UniqueClash(p: Person, q: Person) {
    p.birthDate.Some? && p.pidCode.Some?
    && p.birthDate == q.birthDate && p.pidCode == q.pidCode && p.pidCoordination == q.pidCoordination
  }

  /** `clean_pid_code` as written reads `self.cleaned_data`, an attribute of
      forms that a model does not have, and model validation never calls a
      `clean_<field>` method anyway, so a code is stored as entered. Two
      people born the same day who both leave the code blank then clash on
      the uniqueness constraint; once blank codes are normalised they do
      not. */
  lemma BlankCodesClashAsWritten()
    ensures var p := Person("Anna", "Berg", "anna@example.com", Some(Date(1995, 3, 14)), Some(""), false,
                            None, None, "", "", None);
      var q := p.(firstName := "Bo", email := "bo@example.com");
      UniqueClash(p, q) && !UniqueClash(p.(pidCode := CleanPidCode(p.pidCode)), q.(pidCode := CleanPidCode(q.pidCode)))
  {
  }

  /** Once normalised, a person without a present code never clashes with
      anyone, and a clash between normalised people is a clash between them
      as entered with the same present code. */
  lemma CleanedCodesClashOnlyWhenPresent(p: Person, q: Person)
    ensures !Present(p.pidCode) ==> !UniqueClash(p.(pidCode := CleanPidCode(p.pidCode)), q.(pidCode := CleanPidCode(q.pidCode)))
    ensures UniqueClash(p.(pidCode := CleanPidCode(p.pidCode)), q.(pidCode := CleanPidCode(q.pidCode)))
        <==> Present(p.pidCode) && UniqueClash(p, q)
  {
  }

  // ---------------------------------------------------------------------
  // KOBRA lookup

  datatype KobraQuery =
    | ByLiuId(liuId: string)
    | ByPersonalNumber(personalNumber: string)
    | ByRfid(rfidNumber: string)
    | ByMagnet(magnetNumber: string)

  datatype ClientError = Unauthorized | StudentNotFound

  /** What `fill_kobra_data` raises: the lookup's own errors, which failing
      silently swallows, and two it never catches, the identity-number
      parser's `ValidationError` and the one `full_clean` raises on save. */
  datatype KobraError =
    | MissingIdentifier
    | Client(reason: ClientError)
    | InvalidPersonalNumber
    | InvalidPerson
    | NameNotDefined // NameError: a name the file uses but never imports

  /** The identifiers a person offers for a lookup, in the priority order of
      `Person.get_kobra_data`. */
  function Identifiers(p: Person): seq<KobraQuery> {
    (if Present(p.liuId) then [ByLiuId(p.liuId.value)] else [])
    + (if p.birthDate.Some? && Present(p.pidCode) then [ByPersonalNumber(Pid(p).value)] else [])
    + (if p.liuCardRfid != "" then [ByRfid(p.liuCardRfid)] else [])
    + (if p.liuCardMagnet != "" then [ByMagnet(p.liuCardMagnet)] else [])
  }

  /** The request `Person.get_kobra_data` sends, if any. */
  function KobraQueryFor(p: Person): (r: Option<KobraQuery>)
    ensures Present(p.liuId) ==> r == Some(ByLiuId(p.liuId.value))
    ensures r.Some? && r.value.ByPersonalNumber? ==>
      !Present(p.liuId) && p.birthDate.Some? && Present(p.pidCode) && Some(r.value.personalNumber) == Pid(p)
    ensures r.Some? && r.value.ByRfid? ==>
      !Present(p.liuId) && !(p.birthDate.Some? && Present(p.pidCode)) && r.value.rfidNumber == p.liuCardRfid != ""
    ensures r.Some? && r.value.ByMagnet? ==>
      !Present(p.liuId) && !(p.birthDate.Some? && Present(p.pidCode)) && p.liuCardRfid == ""
      && r.value.magnetNumber == p.liuCardMagnet != ""
    ensures r.None? <==>
      !Present(p.liuId) && !(p.birthDate.Some? && Present(p.pidCode)) && p.liuCardRfid == "" && p.liuCardMagnet == ""
  {
    if Present(p.liuId) then Some(ByLiuId(p.liuId.value))
    else if p.birthDate.Some? && Present(p.pidCode) then Some(ByPersonalNumber(Pid(p).value))
    else if p.liuCardRfid != "" then Some(ByRfid(p.liuCardRfid))
    else if p.liuCardMagnet != "" then Some(ByMagnet(p.liuCardMagnet))
    else None
  }

  /** The request is the highest-priority identifier the person has. */
  lemma KobraQueryIsFirstIdentifier(p: Person)
    ensures KobraQueryFor(p) == if Identifiers(p) == [] then None else Some(Identifiers(p)[0])
  {
  }

  /** The answer of the KOBRA lookup service. */
  datatype KobraData = KobraData(
    firstName: string,
    lastName: string,
    personalNumber: string,
    liuId: string,
    blocked: bool,
    barcodeNumber: Option<string>,
    rfidNumber: Option<string>,
    union: Option<string>)

  /** What the identity-number parser makes of a personal number; the
      parser itself (`SEPersonalIdentityNumberField().clean`) is a parameter
      `parsePid: string -> Option<PidParts>`, `None` when it raises. */
  datatype PidParts = PidParts(birthDate: Option<Date>, code: Option<string>, coordination: bool)

  /** `Person.get_kobra_data`: the lookup answer, nothing when there is no
      identifier and failing silently, or the exception raised. */
  function GetKobraData(p: Person, failSilently: bool, client: KobraQuery -> Result<KobraData, ClientError>)
    : (r: Result<Option<KobraData>, KobraError>)
    ensures KobraQueryFor(p).None? ==> r == (if failSilently then Success(None) else Failure(MissingIdentifier))
    ensures KobraQueryFor(p).Some? ==>
      match client(KobraQueryFor(p).value)
      case Success(d) => r == Success(Some(d))
      case Failure(e) => r == Failure(Client(e))
  {
    match KobraQueryFor(p)
    case None => if failSilently then Success(None) else Failure(MissingIdentifier)
    case Some(q) =>
      match client(q)
      case Success(d) => Success(Some(d))
      case Failure(e) => Failure(Client(e))
  }

  /** The field updates of `Person.fill_kobra_data` for one lookup answer
      whose personal number parsed into `parts`. */
  function MergeKobraData(p: Person, d: KobraData, overwriteName: bool, parts: PidParts): (r: Person)
    ensures r.firstName == if p.firstName == "" || overwriteName then d.firstName else p.firstName
    ensures r.lastName == if p.lastName == "" || overwriteName then d.lastName else p.lastName
    ensures r.birthDate == parts.birthDate && r.pidCode == parts.code && r.pidCoordination == parts.coordination
    ensures r.liuId == Some(d.liuId) && r.liuIdBlocked == Some(d.blocked)
    ensures r.liuCardMagnet == d.barcodeNumber.GetOr("")
    ensures r.liuCardRfid == d.rfidNumber.GetOr("")
    ensures r.studentUnion == if Present(d.union) then d.union else p.studentUnion
    ensures r.email == p.email
  {
    p.(firstName := if p.firstName == "" || overwriteName then d.firstName else p.firstName,
       lastName := if p.lastName == "" || overwriteName then d.lastName else p.lastName,
       birthDate := parts.birthDate,
       pidCode := parts.code,
       pidCoordination := parts.coordination,
       liuId := Some(d.liuId),
       liuIdBlocked := Some(d.blocked),
       liuCardMagnet := d.barcodeNumber.GetOr(""),
       liuCardRfid := d.rfidNumber.GetOr(""),
       studentUnion := if Present(d.union) then d.union else p.studentUnion)
  }

  /** Merging the same answer twice changes nothing more than merging it once. */
  lemma MergeKobraDataIdempotent(p: Person, d: KobraData, overwriteName: bool, parts: PidParts)
    ensures MergeKobraData(MergeKobraData(p, d, overwriteName, parts), d, overwriteName, parts)
         == MergeKobraData(p, d, overwriteName, parts)
  {
  }

  /** `Person.fill_kobra_data`: look the person up and merge the answer in.
      With `failSilently` a missing identifier or a refused lookup leaves the
      person unchanged instead of raising; a personal number the parser
      rejects, and with `save` a merged person `fullClean` rejects, raise
      whatever `failSilently` says. */
  function FillKobraData(p: Person, save: bool, overwriteName: bool, failSilently: bool,
                         client: KobraQuery -> Result<KobraData, ClientError>,
                         parsePid: string -> Option<PidParts>, fullClean: Person -> bool)
    : (r: Result<Person, KobraError>)
    ensures r.Failure? && (r.error.MissingIdentifier? || r.error.Client?)
        <==> !failSilently && GetKobraData(p, false, client).Failure?
    ensures r.Failure? && !r.error.MissingIdentifier? && !r.error.Client? ==>
      GetKobraData(p, failSilently, client).Success? && GetKobraData(p, failSilently, client).value.Some?
    ensures KobraQueryFor(p).None? ==> r == (if failSilently then Success(p) else Failure(MissingIdentifier))
    ensures GetKobraData(p, failSilently, client).Success? && GetKobraData(p, failSilently, client).value.Some? ==>
      var d := GetKobraData(p, failSilently, client).value.value;
      match parsePid(d.personalNumber)
      case None => r == Failure(InvalidPersonalNumber)
      case Some(parts) =>
        var m := MergeKobraData(p, d, overwriteName, parts);
        r == if save && !fullClean(m) then Failure(InvalidPerson) else Success(m)
    ensures r.Success? && !overwriteName && p.firstName != "" ==> r.value.firstName == p.firstName
    ensures r.Success? && !overwriteName && p.lastName != "" ==> r.value.lastName == p.lastName
    ensures r.Success? ==> r.value.email == p.email
  {
    match GetKobraData(p, failSilently, client)
    case Failure(e) => if failSilently then Success(p) else Failure(e)
    case Success(None) => Success(p)
    case Success(Some(d)) =>
      match parsePid(d.personalNumber)
      case None => Failure(InvalidPersonalNumber)
      case Some(parts) =>
        var m := MergeKobraData(p, d, overwriteName, parts);
        if save && !fullClean(m) then Failure(InvalidPerson) else Success(m)
  }

  /** A lookup answer whose personal number the parser rejects raises even
      when failing silently: only the lookup's own errors are caught. */
  lemma SilentFillStillRaisesOnBadNumber(p: Person, save: bool, overwriteName: bool,
                                         client: KobraQuery -> Result<KobraData, ClientError>,
                                         parsePid: string -> Option<PidParts>, fullClean: Person -> bool)
    requires KobraQueryFor(p).Some? && client(KobraQueryFor(p).value).Success?
    requires parsePid(client(KobraQueryFor(p).value).value.personalNumber).None?
    ensures FillKobraData(p, save, overwriteName, true, client, parsePid, fullClean) == Failure(InvalidPersonalNumber)
  {
  }

  /** The state of the people after `PersonQuerySet.fill_kobra_data`: the
      stored rows, how many people were filled before the loop stopped, and
      the exception that stopped it, if any. */
  datatype BatchFill = BatchFill(rows: seq<Person>, filled: nat, error: Option<KobraError>)

  /** `PersonQuerySet.fill_kobra_data`: every person in turn is filled and
      saved, without overwriting names and failing silently. A lookup that
      finds nobody never stops the batch, but an exception failing silently
      does not catch stops it: the people before it stay filled and saved,
      it and the people after it stay as they were. */
  function FillAllKobraData(ps: seq<Person>, client: KobraQuery -> Result<KobraData, ClientError>,
                            parsePid: string -> Option<PidParts>, fullClean: Person -> bool): (r: BatchFill)
    ensures |r.rows| == |ps| && r.filled <= |ps|
    ensures forall i :: 0 <= i < r.filled ==>
      FillKobraData(ps[i], true, false, true, client, parsePid, fullClean) == Success(r.rows[i])
    ensures forall i :: r.filled <= i < |ps| ==> r.rows[i] == ps[i]
    ensures r.error.None? <==> r.filled == |ps|
    ensures r.error.Some? ==>
      FillKobraData(ps[r.filled], true, false, true, client, parsePid, fullClean) == Failure(r.error.value)
    ensures r.error.Some? ==> r.error.value == InvalidPersonalNumber || r.error.value == InvalidPerson
    ensures forall i :: 0 <= i < |ps| && ps[i].firstName != "" ==> r.rows[i].firstName == ps[i].firstName
    ensures forall i :: 0 <= i < |ps| && ps[i].lastName != "" ==> r.rows[i].lastName == ps[i].lastName
    ensures forall i :: 0 <= i < |ps| ==> r.rows[i].email == ps[i].email
    decreases |ps|
  {
    if ps == [] then BatchFill([], 0, None)
    else
      var before := FillAllKobraData(ps[..|ps| - 1], client, parsePid, fullClean);
      var last := ps[|ps| - 1];
      if before.error.Some? then BatchFill(before.rows + [last], before.filled, before.error)
      else
        match FillKobraData(last, true, false, true, client, parsePid, fullClean)
        case Success(q) => BatchFill(before.rows + [q], |ps|, None)
        case Failure(e) => BatchFill(before.rows + [last], |ps| - 1, Some(e))
  }

  /** `Person.fill_kobra_data` as written: tickle/people/models.py imports
      neither `KobraClient` nor `Unauthorized` and `StudentNotFound`. With
      an identifier, `KobraClient()` raises a NameError; without one and not
      failing silently, the `KeyError` is matched against the `except`
      tuple, whose evaluation raises a NameError in turn. Only a person
      without any identifier, filled silently, comes back, unchanged. */
  function FillKobraDataAsWritten(p: Person, save: bool, overwriteName: bool, failSilently: bool): (r: Result<Person, KobraError>)
    ensures r.Success? <==> KobraQueryFor(p).None? && failSilently
    ensures r.Success? ==> r.value == p
    ensures r.Failure? ==> r.error == NameNotDefined
  {
    if KobraQueryFor(p).None? && failSilently then Success(p) else Failure(NameNotDefined)
  }

  /** A student with a LiU id whom the lookup does not find: as written the
      silent fill raises a NameError, as intended it leaves the person as
      they were. */
  lemma FillKobraDataAsWrittenRaises()
    ensures var p := Person("Anna", "Berg", "anna@example.com", None, None, false,
                            Some("annbe123"), None, "", "", None);
      var client: KobraQuery -> Result<KobraData, ClientError> := _ => Failure(StudentNotFound);
      FillKobraDataAsWritten(p, true, false, true) == Failure(NameNotDefined)
      && FillKobraData(p, true, false, true, client, _ => None, _ => true) == Success(p)
  {
  }

  /** `PersonQuerySet.fill_kobra_data` as written: nobody is changed, and the
      batch stops with a NameError at the first person who has any
      identifier. */
  function FillAllKobraDataAsWritten(ps: seq<Person>): (r: BatchFill)
    ensures r.rows == ps && r.filled <= |ps|
    ensures forall i :: 0 <= i < r.filled ==> KobraQueryFor(ps[i]).None?
    ensures r.error.None? <==> r.filled == |ps|
    ensures r.error.Some? ==> r.error.value == NameNotDefined && KobraQueryFor(ps[r.filled]).Some?
    decreases |ps|
  {
    if ps == [] then BatchFill([], 0, None)
    else
      var before := FillAllKobraDataAsWritten(ps[..|ps| - 1]);
      var last := ps[|ps| - 1];
      if before.error.Some? then BatchFill(before.rows + [last], before.filled, before.error)
      else
        match FillKobraDataAsWritten(last, true, false, true)
        case Success(q) => BatchFill(before.rows + [q], |ps|, None)
        case Failure(e) => BatchFill(before.rows + [last], |ps| - 1, Some(e))
  }

  /** The written batch does what the intended one does only for people
      none of whom has an identifier. */
  lemma {:induction false} FillAllAsWrittenAgreesWithoutIdentifiers(
    ps: seq<Person>, client: KobraQuery -> Result<KobraData, ClientError>,
    parsePid: string -> Option<PidParts>, fullClean: Person -> bool)
    requires forall i :: 0 <= i < |ps| ==> KobraQueryFor(ps[i]).None?
    ensures FillAllKobraDataAsWritten(ps) == FillAllKobraData(ps, client, parsePid, fullClean)
    decreases |ps|
  {
    if ps != [] {
      FillAllAsWrittenAgreesWithoutIdentifiers(ps[..|ps| - 1], client, parsePid, fullClean);
    }
  }

  // ---------------------------------------------------------------------
  // Names

  /** `Person.get_full_name`: first name, a space, last name. */
  function FullName(p: Person): (r: string)
    ensures |r| == |p.firstName| + 1 + |p.lastName|
    ensures r[..|p.firstName|] == p.firstName && r[|p.firstName|] == ' ' && r[|p.firstName| + 1..] == p.lastName
  {
    p.firstName + " " + p.lastName
  }

  /** Split a full name at its first space. */
  function SplitAtFirstSpace(s: string): (r: (string, string))
    ensures ' ' !in r.0
    ensures ' ' in s ==> r.0 + " " + r.1 == s
    ensures ' ' !in s ==> r == (s, "")
    decreases |s|
  {
    if s == [] then ("", "")
    else if s[0] == ' ' then ("", s[1..])
    else
      var rest := SplitAtFirstSpace(s[1..]);
      assert [s[0]] + s[1..] == s;
      ([s[0]] + rest.0, rest.1)
  }

  /** A first name without spaces can be read back out of the full name,
      and so can the last name. */
  lemma {:induction false} FullNameSplits(p: Person)
    requires ' ' !in p.firstName
    ensures SplitAtFirstSpace(FullName(p)) == (p.firstName, p.lastName)
  {
    SplitPrefix(p.firstName, p.lastName);
  }

  lemma {:induction false} SplitPrefix(a: string, b: string)
    requires ' ' !in a
    ensures SplitAtFirstSpace(a + " " + b) == (a, b)
    decreases |a|
  {
    if a == [] {
      assert a + " " + b == [' '] + b;
      assert ([' '] + b)[1..] == b;
    } else {
      assert (a + " " + b)[0] == a[0];
      assert (a + " " + b)[1..] == a[1..] + " " + b;
      SplitPrefix(a[1..], b);
      assert [a[0]] + a[1..] == a;
    }
  }

  /** `Person.get_short_name`: first name, a space, the last name's initial
      and a dot; it raises (here: `None`) when the last name is blank. */
  function ShortName(p: Person): (r: Option<string>)
    ensures r.None? <==> p.lastName == ""
    ensures r.Some? ==> r.value == FullName(p)[..|p.firstName| + 2] + "."
  {
    if p.lastName == "" then None else Some(p.firstName + " " + [p.lastName[0]] + ".")
  }

  // ---------------------------------------------------------------------
  // User creation

  /** What `create_user` raises: the two argument checks' `ValueError`s, and
      the `TypeError` of `self.model(username=...)`, since a `Person` has no
      `username` field (its login field is `email`). */
  datatype UserError = UsernameRequired | PasswordRequired | NoUsernameField

  /** The argument checks of `PersonManager.create_user`: a username and a
      password are both required, the username checked first. */
  function CreateUserChecks(username: Option<string>, password: Option<string>): (r: Outcome<UserError>)
    ensures r.Pass? <==> Present(username) && Present(password)
    ensures !Present(username) ==> r == Fail(UsernameRequired)
    ensures Present(username) && !Present(password) ==> r == Fail(PasswordRequired)
  {
    if !Present(username) then Fail(UsernameRequired)
    else if !Present(password) then Fail(PasswordRequired)
    else Pass
  }

  /** `PersonManager.create_user` as written: past the argument checks, the
      model constructor rejects the unknown `username` keyword, so no user
      is ever created; the error says which step refused. */
  function CreateUser(username: Option<string>, password: Option<string>): (r: Outcome<UserError>)
    ensures r.Fail?
    ensures r.error != NoUsernameField <==> CreateUserChecks(username, password).Fail?
    ensures CreateUserChecks(username, password).Fail? ==> r == CreateUserChecks(username, password)
  {
    match CreateUserChecks(username, password)
    case Fail(e) => Fail(e)
    case Pass => Fail(NoUsernameField)
  }

  /** `PersonManager.create_superuser`: it calls `create_user` first, so it
      raises exactly what `create_user` raises and never reaches the flags. */
  function CreateSuperuser(username: Option<string>, password: Option<string>): (r: Outcome<UserError>)
    ensures r.Fail?
    ensures r.error == UsernameRequired <==> !Present(username)
    ensures r.error == PasswordRequired <==> Present(username) && !Present(password)
    ensures r.error == NoUsernameField <==> Present(username) && Present(password)
  {
    CreateUser(username, password)
  }
}

=== FILE: products.dfy ===
/** The newer schema generation of the ticketing backend
    (tickle/products/models.py): carts stamped when purchased, holdings
    priced from the product's base price, the holder's modifiers and the
    chosen variation choices, and the product limits.

    Several members of this file cannot run as written; each such member is
    modelled twice, once as written (named `...AsWritten`) with a lemma
    showing what goes wrong, and once as evidently intended. The rest of the
    model uses the intended definitions. */
module Products {
  import opened Wrappers
  import LegacyProducts

  type Cents = int
  type PersonId = nat
  type CartId = nat
  type Time = int

  datatype Cart = Cart(person: PersonId, purchased: Option<Time>)

  type ProductId = nat
  type EventId = nat

  /** A `Product` of this generation, identified by its primary key `id`;
      `mainEvent` is the key of its main event, and a name is unique only
      within one main event. Unlike the older generation it declares no
      `quantitative` flag. */
  datatype Product = Product(
    id: ProductId,
    mainEvent: EventId,
    name: string,
    basePrice: Cents,
    published: bool,
    personalLimit: Option<nat>,
    totalLimit: Option<nat>,
    transferable: bool)

  /** A `ProductVariationChoice`; a blank `deltaAmount` is NULL and a
      negative one is a discount. */
  datatype VariationChoice = VariationChoice(name: string, order: nat, deltaAmount: Option<Cents>)

  datatype Holding = Holding(
    person: PersonId,
    product: Product,
    choices: seq<VariationChoice>,
    quantity: nat,
    cart: CartId,
    utilized: Option<Time>,
    purchasePrice: Option<Cents>)

  /** `product_modifiers.met(person).real_delta()`, whose rules the model
      does not see. */
  type ModifierDelta = (Product, PersonId) -> Cents

  datatype ValidationError = QuantityMustBeOne

  /** What a price computation raises instead of returning a number. */
  datatype PriceError =
    | ManagerNotIterable // TypeError: a related manager is looped over without `.all()`
    | BlankChoiceDelta   // `Decimal + None`: a chosen choice whose delta amount is NULL

  datatype LimitError = NoLimitAttribute // AttributeError on `self.limit`

  datatype CleanError =
    | NoQuantitativeAttribute // AttributeError on `self.product.quantitative`
    | Invalid(error: ValidationError)

  // ---------------------------------------------------------------------
  // Cart

  predicate IsPurchased(c: Cart) {
    c.purchased.Some?
  }

  /** `Cart.purchase`: stamp the cart with the purchase time. */
  function PurchaseCart(c: Cart, now: Time): (r: Cart)
    ensures IsPurchased(r) && r.purchased == Some(now)
    ensures r.(purchased := c.purchased) == c
  {
    c.(purchased := Some(now))
  }

  // ---------------------------------------------------------------------
  // Holding validation

  /** `Holding.clean` as written: the product has no `quantitative`
      attribute, so the check raises an AttributeError before it can look at
      the quantity, for every holding. (Were it reached, the `raise` would
      fail in turn: `ValidationError` is not imported in this file.) */
  function CleanAsWritten(h: Holding): (r: Outcome<CleanError>)
    ensures r == Fail(NoQuantitativeAttribute)
  {
    Fail(NoQuantitativeAttribute)
  }

  /** `Holding.clean` as evidently intended, given the flag `quantitative`
      that this schema lacks: only a quantitative product may be held in a
      quantity other than one, and any other holding is rejected with the
      quantity validation error. */
  function Clean(h: Holding, quantitative: bool): (r: Outcome<ValidationError>)
    ensures r.Pass? <==> quantitative || h.quantity == 1
    ensures r.Fail? ==> r.error == QuantityMustBeOne
  {
    if quantitative || h.quantity == 1 then Pass else Fail(QuantityMustBeOne)
  }

  /** A single unit passes the intended check whatever the flag, and a
      quantitative product passes it in any quantity, while the written
      check refuses both. */
  lemma CleanAsWrittenAlwaysRaises(h: Holding, quantitative: bool)
    requires quantitative || h.quantity == 1
    ensures CleanAsWritten(h) == Fail(NoQuantitativeAttribute) && Clean(h, quantitative) == Pass
  {
  }

  /** The intended check is the older generation's rule: given the same
      flag and quantity, both accept the same holdings, with the same
      error. */
  lemma CleanAgreesWithLegacy(h: Holding, quantitative: bool, legacy: LegacyProducts.Holding)
    requires legacy.product.quantitative == quantitative && legacy.quantity == h.quantity
    ensures Clean(h, quantitative).Pass? <==> LegacyProducts.Clean(legacy).Pass?
    ensures Clean(h, quantitative).Fail? ==> LegacyProducts.Clean(legacy) == Fail(LegacyProducts.QuantityMustBeOne)
  {
  }

  // ---------------------------------------------------------------------
  // Variation deltas and prices

  /** `ProductVariationChoice.delta`: the choice's amount, NULL when blank. */
  function ChoiceDelta(c: VariationChoice): (r: Option<Cents>)
    ensures r.None? <==> c.deltaAmount.None?
    ensures r.Some? ==> r.value == c.deltaAmount.value
  {
    c.deltaAmount
  }

  predicate AllChoicesPriced(cs: seq<VariationChoice>) {
    forall i :: 0 <= i < |cs| ==> ChoiceDelta(cs[i]).Some?
  }

  /** The intended `Holding.product_variation_choice_delta`: the sum of the
      chosen choices' deltas, starting from zero; it raises when a chosen
      choice has no amount, because `Decimal + None` does. */
  function VariationDelta(cs: seq<VariationChoice>): (r: Result<Cents, PriceError>)
    ensures r.Success? <==> AllChoicesPriced(cs)
    ensures r.Failure? ==> r.error == BlankChoiceDelta
    ensures cs == [] ==> r == Success(0)
    decreases |cs|
  {
    if cs == [] then Success(0)
    else
      match VariationDelta(cs[..|cs| - 1])
      case Failure(e) => Failure(e)
      case Success(sum) =>
        match ChoiceDelta(cs[|cs| - 1])
        case None => Failure(BlankChoiceDelta)
        case Some(d) => Success(sum + d)
  }

  /** The delta of two groups of choices is the sum of their deltas. */
  lemma {:induction false} VariationDeltaAppend(a: seq<VariationChoice>, b: seq<VariationChoice>)
    requires AllChoicesPriced(a) && AllChoicesPriced(b)
    ensures VariationDelta(a + b).Success?
    ensures VariationDelta(a + b).value == VariationDelta(a).value + VariationDelta(b).value
    decreases |b|
  {
    if b == [] {
      assert a + b == a;
    } else {
      var b' := b[..|b| - 1];
      assert (a + b)[..|a + b| - 1] == a + b';
      assert (a + b)[|a + b| - 1] == b[|b| - 1];
      VariationDeltaAppend(a, b');
    }
  }

  /** The intended `Holding.product_variation_choice_delta` as the source
      writes it: a loop that starts at zero and adds each choice's delta. */
  method ComputeVariationDelta(cs: seq<VariationChoice>) returns (r: Result<Cents, PriceError>)
    ensures r == VariationDelta(cs)
  {
    var delta := 0;
    var i := 0;
    while i < |cs|
      invariant 0 <= i <= |cs|
      invariant VariationDelta(cs[..i]) == Success(delta)
    {
      assert cs[..i + 1][..i] == cs[..i];
      match ChoiceDelta(cs[i])
      case None =>
        BlankStaysBlank(cs, i + 1);
        return Failure(BlankChoiceDelta);
      case Some(d) =>
        delta := delta + d;
      i := i + 1;
    }
    assert cs[..i] == cs;
    r := Success(delta);
  }

  /** Once a prefix of the choices fails, every longer prefix fails too. */
  lemma {:induction false} BlankStaysBlank(cs: seq<VariationChoice>, k: nat)
    requires 0 < k <= |cs| && ChoiceDelta(cs[k - 1]).None?
    ensures VariationDelta(cs) == Failure(BlankChoiceDelta)
  {
  }

  /** `product_variation_choice_delta` as written: it loops over the related
      manager itself rather than over `.all()`, and a manager is not
      iterable, so the loop raises a TypeError before its first step,
      whatever the choices. (Were the loop reached, the method would still
      return `None`: it has no `return`.) */
  function VariationDeltaAsWritten(cs: seq<VariationChoice>): (r: Result<Cents, PriceError>)
    ensures r == Failure(ManagerNotIterable)
  {
    Failure(ManagerNotIterable)
  }

  /** `Product.modified_price` as evidently intended: the base price plus
      the holder's modifier delta (`Product.modifier_delta`). */
  function ModifiedPrice(p: Product, person: PersonId, modifier: ModifierDelta): (r: Cents)
    ensures r - p.basePrice == modifier(p, person)
    ensures modifier(p, person) < 0 ==> r < p.basePrice
    ensures modifier(p, person) == 0 ==> r == p.basePrice
  {
    p.basePrice + modifier(p, person)
  }

  /** `Product.modified_price` as written: the sum is computed and dropped,
      so the method returns `None`. */
  function ModifiedPriceAsWritten(p: Product, person: PersonId, modifier: ModifierDelta): (r: Option<Cents>)
    ensures r.None?
  {
    None
  }

  /** `Holding.price` as evidently intended: the base price, plus the
      holder's modifier delta, plus the variation delta. */
  function Price(h: Holding, modifier: ModifierDelta): (r: Result<Cents, PriceError>)
    ensures r.Success? <==> AllChoicesPriced(h.choices)
    ensures r.Success? ==> r.value == ModifiedPrice(h.product, h.person, modifier) + VariationDelta(h.choices).value
    ensures r.Failure? ==> r.error == BlankChoiceDelta
  {
    match VariationDelta(h.choices)
    case Failure(e) => Failure(e)
    case Success(v) => Success(h.product.basePrice + modifier(h.product, h.person) + v)
  }

  /** The modified price is what a holding without variation choices costs. */
  lemma ModifiedPriceIsPriceWithoutChoices(h: Holding, modifier: ModifierDelta)
    requires h.choices == []
    ensures Price(h, modifier) == Success(ModifiedPrice(h.product, h.person, modifier))
  {
  }

  /** `Holding.price` as written: the TypeError raised by
      `product_variation_choice_delta` passes through, always. */
  function PriceAsWritten(h: Holding, modifier: ModifierDelta): (r: Result<Cents, PriceError>)
    ensures r == Failure(ManagerNotIterable)
  {
    match VariationDeltaAsWritten(h.choices)
    case Failure(e) => Failure(e)
    case Success(v) => Success(h.product.basePrice + modifier(h.product, h.person) + v)
  }

  /** A holding without choices and without modifiers costs its base price
      under the intended definition, while the written one raises. */
  lemma PriceAsWrittenNeverReturns()
    ensures var p := Product(1, 1, "Biljett", 50000, true, Some(1), None, true);
      var h := Holding(0, p, [], 1, 0, None, None);
      var none: ModifierDelta := (_, _) => 0;
      PriceAsWritten(h, none) == Failure(ManagerNotIterable) && Price(h, none) == Success(50000)
  {
  }

  /** A single choice moves the price by exactly its amount: a negative
      amount is a discount, and a blank amount makes pricing fail. */
  lemma SingleChoicePrice(h: Holding, c: VariationChoice, modifier: ModifierDelta)
    requires h.choices == [c]
    ensures c.deltaAmount.None? ==> Price(h, modifier) == Failure(BlankChoiceDelta)
    ensures c.deltaAmount.Some? ==>
      Price(h, modifier) == Success(h.product.basePrice + modifier(h.product, h.person) + c.deltaAmount.value)
    ensures c.deltaAmount.Some? && c.deltaAmount.value < 0 ==>
      Price(h, modifier).value < ModifiedPrice(h.product, h.person, modifier)
  {
  }

  /** Adding priced choices to a holding adds their delta to its price. */
  lemma PriceWithMoreChoices(h: Holding, extra: seq<VariationChoice>, modifier: ModifierDelta)
    requires AllChoicesPriced(h.choices) && AllChoicesPriced(extra)
    ensures Price(h.(choices := h.choices + extra), modifier).Success?
    ensures Price(h.(choices := h.choices + extra), modifier).value
         == Price(h, modifier).value + VariationDelta(extra).value
  {
    VariationDeltaAppend(h.choices, extra);
  }

  // ---------------------------------------------------------------------
  // Limits

  /** A product with the field defaults: published, transferable, one per
      person and no total limit. */
  function NewProduct(id: ProductId, mainEvent: EventId, name: string, basePrice: Cents): (r: Product)
    ensures r.personalLimit == Some(1) && r.totalLimit.None?
    ensures r.published && r.transferable
    ensures r.id == id && r.mainEvent == mainEvent && r.name == name && r.basePrice == basePrice
  {
    Product(id, mainEvent, name, basePrice, true, Some(1), None, true)
  }

  /** `limit and purchased >= limit`: a NULL limit, and with Python's
      truthiness also a zero limit, is never reached. */
  predicate LimitReached(limit: Option<nat>, purchased: nat) {
    limit.Some? && limit.value != 0 && purchased >= limit.value
  }

  /** `self.holdings.purchased().quantity()`: the units of product `p` among
      the holdings `hs` whose cart is stamped as purchased; a holding
      belongs to `p` when its product key is `p`'s. */
  function PurchasedQuantity(p: Product, carts: map<CartId, Cart>, hs: seq<Holding>): (r: nat)
    ensures forall i :: 0 <= i < |hs| && hs[i].product.id == p.id && hs[i].cart in carts && IsPurchased(carts[hs[i].cart])
              ==> hs[i].quantity <= r
    ensures (forall i :: 0 <= i < |hs| ==> hs[i].product.id != p.id) ==> r == 0
    decreases |hs|
  {
    if hs == [] then 0
    else
      var last := hs[|hs| - 1];
      PurchasedQuantity(p, carts, hs[..|hs| - 1])
        + (if last.product.id == p.id && last.cart in carts && IsPurchased(carts[last.cart]) then last.quantity else 0)
  }

  /** Holdings of other products, even ones with the same name, price and
      limits at another main event, do not count towards a product's
      purchased quantity. */
  lemma {:induction false} OtherProductsDoNotCount(p: Product, carts: map<CartId, Cart>, hs: seq<Holding>, other: seq<Holding>)
    requires forall i :: 0 <= i < |other| ==> other[i].product.id != p.id
    ensures PurchasedQuantity(p, carts, hs + other) == PurchasedQuantity(p, carts, hs)
    decreases |other|
  {
    if other != [] {
      var o' := other[..|other| - 1];
      assert (hs + other)[..|hs + other| - 1] == hs + o';
      assert (hs + other)[|hs + other| - 1] == other[|other| - 1];
      OtherProductsDoNotCount(p, carts, hs, o');
    } else {
      assert hs + other == hs;
    }
  }

  /** `Product.has_reached_limit` as evidently intended: the total limit
      compared with the purchased quantity of the product's holdings. */
  function HasReachedLimit(p: Product, carts: map<CartId, Cart>, hs: seq<Holding>): (r: bool)
    ensures p.totalLimit.None? ==> !r
    ensures r <==> p.totalLimit.Some? && p.totalLimit.value > 0 && PurchasedQuantity(p, carts, hs) >= p.totalLimit.value
  {
    LimitReached(p.totalLimit, PurchasedQuantity(p, carts, hs))
  }

  /** `Product.has_reached_limit` as written: `self.limit` is no field of
      `Product`, so the call raises an AttributeError. */
  function HasReachedLimitAsWritten(p: Product, carts: map<CartId, Cart>, hs: seq<Holding>): (r: Result<bool, LimitError>)
    ensures r == Failure(NoLimitAttribute)
  {
    Failure(NoLimitAttribute)
  }

  /** A sold-out product raises instead of answering, where the intended
      check says its limit is reached. */
  lemma HasReachedLimitAsWrittenRaises()
    ensures var p := Product(2, 1, "Gasque", 30000, true, Some(1), Some(1), true);
      var carts := map[7 := Cart(0, Some(1458950700))];
      var hs := [Holding(0, p, [], 1, 7, None, None)];
      HasReachedLimitAsWritten(p, carts, hs) == Failure(NoLimitAttribute) && HasReachedLimit(p, carts, hs)
  {
  }

  /** A freshly created product has no total limit and never reaches it. */
  lemma NewProductUnlimited(id: ProductId, mainEvent: EventId, name: string, basePrice: Cents,
                            carts: map<CartId, Cart>, hs: seq<Holding>)
    ensures !HasReachedLimit(NewProduct(id, mainEvent, name, basePrice), carts, hs)
  {
  }

  /** Stamping a cart as purchased never lowers any product's purchased
      quantity. */
  lemma {:induction false} PurchaseNeverLowersPurchasedQuantity(p: Product, carts: map<CartId, Cart>, id: CartId, now: Time, hs: seq<Holding>)
    requires id in carts
    ensures PurchasedQuantity(p, carts[id := PurchaseCart(carts[id], now)], hs) >= PurchasedQuantity(p, carts, hs)
    decreases |hs|
  {
    if hs != [] {
      PurchaseNeverLowersPurchasedQuantity(p, carts, id, now, hs[..|hs| - 1]);
    }
  }

  /** So once a product's limit is reached, purchasing a cart keeps it reached. */
  lemma LimitStaysReached(p: Product, carts: map<CartId, Cart>, id: CartId, now: Time, hs: seq<Holding>)
    requires id in carts && HasReachedLimit(p, carts, hs)
    ensures HasReachedLimit(p, carts[id := PurchaseCart(carts[id], now)], hs)
  {
    PurchaseNeverLowersPurchasedQuantity(p, carts, id, now, hs);
  }
}

=== FILE: wrappers.dfy ===
/** The failure-carrying shapes used throughout the model: `Option` for the
    nullable columns of the schema, `Result` for operations that return a
    value or raise, and `Outcome` for checks that pass or raise. */
module Wrappers {

  /** A nullable value: `None` stands for SQL NULL / Python `None`. */
  datatype Option<+T> = None | Some(value: T) {
    function GetOr(default: T): T {
      if Some? then value else default
    }
  }

  /** A value, or the exception raised instead of producing it. */
  datatype Result<+T, +E> = Success(value: T) | Failure(error: E)

  /** A validation step that either passes or raises. */
  datatype Outcome<+E> = Pass | Fail(error: E)
}
